=== FILE: README.md ===
# VAULT affidavit generator — a Dafny model of its core

The service takes a transaction record (sender, receiver, amount, currency,
date, transaction id, optional notes), lays out a branded PDF "affidavit"
certifying it, stores the PDF under a fresh file name and returns a download
path; a second endpoint hands a stored PDF back. Both endpoints sit behind a
bearer-header check against a configured API key.

This project models the logic of that service that does not belong to a
library, as pure functions over strings, sequences and maps:

- `Text` — the Python string operations the code relies on: `startswith`,
  `str.replace(p, "")`, slicing `s[:n]`, `upper()`. `Contains` is a model
  helper for stating properties; the code never calls `in`.
- `Api` — the request record, the response, and the HTTP errors with their
  status codes and messages.
- `Auth` — the bearer-header check, both as written (`str.replace` removes
  every `"Bearer "`) and corrected (strip the leading prefix only). See
  Findings.
- `Layout` — the content of the affidavit: the detail table with five or six
  rows, the three-row verification table, and the fixed twelve-block
  sequence of spacers, paragraphs and tables.
- `Decorator` — the per-page decoration as a list of canvas operations,
  run against a canvas that keeps a stack of saved drawing states. It is
  balanced, and it hands the canvas back with the drawing state it came in
  with.
- `Endpoints` — file-name and URL derivation, generation with its error
  wrapping, and download. Storage is a `map<string, seq<byte>>`.
- `Service` — the endpoints composed with the header check: `Generate` and
  `Download` with the corrected check, `GenerateAsWritten` and
  `DownloadAsWritten` with the check as app.py writes it.

The clock, the uuids, `str()` of the float amount and `strftime` of the dates
are inputs: strings passed in as parameters. The PDF backend (`doc.build`) is
a function parameter. It maps the content blocks either to the bytes it
writes or to the message of the exception it raises. The configured API key
is a parameter too.

## Model

| member | source | states |
|---|---|---|
| Text.StartsWithSplits | app.py:59 | `startswith("Bearer ")` holds exactly when the header is "Bearer " followed by the rest of it; "Bearer " + anything passes |
| Text.RemoveAllAbsent | app.py:62 | `replace("Bearer ", "")` leaves a string unchanged when it has no occurrence of the pattern |
| Text.RemoveAllShrinks | app.py:62 | a string that contains the pattern always gets strictly shorter under the removal |
| Text.RemoveAllFixedPoint | app.py:62 | the removal is the identity on a string exactly when the pattern does not occur in it |
| Text.RemoveAllLeadingCopies | app.py:62 | any number of leading copies of the pattern disappear without affecting the rest |
| Text.RemoveAll | app.py:62 | `replace("Bearer ", "")` never makes a string longer |
| Text.RemoveAllFirstOccurrence | app.py:62 | the text before the first occurrence is kept, that occurrence is dropped, and the removal carries on after it; together with Text.RemoveAllAbsent this fixes the result on every string |
| Text.Take | app.py:84 | `s[:n]` is a prefix of `s` of length `n`, or all of `s` when it is shorter |
| Text.Upper | app.py:301 | `upper()` keeps the length, turns each lower-case ASCII letter into its upper-case letter (32 code points lower) and leaves every other character as it is |
| Text.UpperOfLowerHex | app.py:301 | upper-casing lower-case hex gives upper-case hex, and lower-casing it restores the input |
| Api.HasNotes | app.py:256 | notes count only when given and non-empty: absent notes and "" do not, any non-empty string does |
| Api.GenerationFailed | app.py:95-96 | any exception during generation becomes status 500 with a detail that starts with "PDF generation failed: " and carries the message |
| Auth.VerifyApiKeyAsWritten | app.py:58-66 | a header that does not start with "Bearer " gets the 401 format error whatever the key; otherwise it is accepted iff removing every "Bearer " leaves exactly the key, and refused with "Invalid API key" when it does not; acceptance returns the key; every rejection is a 401 |
| Auth.CanonicalHeaderAsWritten | app.py:59-66 | as written, "Bearer " + key is accepted iff the key itself contains no "Bearer " |
| Auth.RepeatedPrefixAsWritten | app.py:59-66 | as written, one or more "Bearer " prefixes before a plain key are all accepted and yield the key |
| Auth.DoubledPrefixAsWritten | app.py:62-66 | as written, "Bearer Bearer k" is accepted for the key "k" |
| Auth.VerifyApiKey | app.py:58-66 | corrected check: accepted iff the header is exactly "Bearer " + key; format error without the prefix; "Invalid API key" when the part after the prefix is not the key; acceptance returns the key; every rejection is a 401 |
| Auth.ChecksAgreeOnPlainHeaders | app.py:58-66 | both checks give the same outcome on every header whose credential part has no further "Bearer " |
| Auth.DoubledPrefixRejected | app.py:62-64 | the corrected check rejects "Bearer Bearer k" for the key "k" with "Invalid API key" |
| Layout.DetailRows | app.py:248-257 | detail rows: 5 rows keyed Transaction ID, Date, Sender, Receiver, Amount; a sixth Notes row only for present, non-empty notes; id cell is "#" + id, sender/receiver unchanged, amount cell is amount + " " + currency |
| Layout.NotesOnlyAppend | app.py:248-257 | two requests that differ only in their notes have the same first five detail rows |
| Layout.DetailKeysDistinct | app.py:248-257 | no key repeats among the detail rows, Notes included |
| Layout.DetailRowsLookup | app.py:248-254 | reading the detail table by each fixed key returns that key's own cell |
| Layout.NotesLookup | app.py:256-257 | the detail table has a Notes entry iff the notes are present and non-empty, and then it holds them unchanged |
| Layout.SecurityHash | app.py:301 | the hash has 12 characters for a hex input of at least 12; it is upper-case hex for lower-case hex input, and lower-cases back to the input's first 12 digits |
| Layout.VerificationRows | app.py:299-303 | exactly three rows keyed "Verification Status:", "Security Hash:", "Platform:" in that order, with "VERIFIED" first and "VAULT Financial" last |
| Layout.VerificationHashShape | app.py:299-303 | for a 32-digit lower-case uuid hex, the hash cell is 12 upper-case hex digits that are the uuid's first 12 |
| Layout.VerifiedText | app.py:293-296 | the verification sentence is the fixed lead-in followed by the generation time and a full stop |
| Layout.AffidavitBlocks | app.py:229-324 | 12 blocks; spacers exactly at the odd positions (1st, 3rd, …, 11th); tables exactly at positions 6 and 12 (detail, then verification); title second; time-stamped sentence tenth |
| Layout.OnlyInjectedBlocksVary | app.py:229-324 | the layout is fixed: two affidavits differ only in the detail table, verification sentence and verification table, and each of those depends on one input only |
| Layout.DetailTableRowCount | app.py:248-281 | the table placed in the document has 5 rows without notes, and 6 with ("Notes", notes) last otherwise |
| Decorator.Step | app.py:118-181 | a restore with nothing saved fails, and nothing else does; a save pushes the current state; other operations leave the saved states alone; nothing drawn is ever erased |
| Decorator.Run | app.py:118-181 | running no operations changes nothing; a run that succeeds keeps everything drawn before it and only adds after it |
| Decorator.FlatBalanced | app.py:120-138 | a run of drawing operations with no save or restore is balanced |
| Decorator.ConcatBalanced | app.py:118-181 | balanced operation lists stay balanced when concatenated |
| Decorator.BracketBalanced | app.py:143-147 | a balanced list between a save and a restore is balanced |
| Decorator.RunKeepsSaved | app.py:118-181 | a list whose restores never outrun its saves cannot fail, and keeps the earlier saved states below the ones it adds |
| Decorator.BracketRestores | app.py:143-147 | save, a balanced body, restore: the canvas ends with the drawing state and saved states it started with |
| Decorator.HeaderOps | app.py:120-138 | the header neither saves nor restores |
| Decorator.HeaderDraws | app.py:120-138 | the header draws two things: the bar in green, then "VAULT" in white bold 16-point; the fill and font it set stay in force |
| Decorator.WatermarkOps | app.py:140-147 | the watermark's seven operations save third and restore last, and nothing else in it saves or restores |
| Decorator.WatermarkDraws | app.py:140-147 | the watermark draws "VAULT" once, in light green bold 80-point, moved to the horizontal centre of the frame and half the frame height above the bottom edge of the page, and turned 45 degrees; the move and turn end with it, the font and colour set before the save outlive it |
| Decorator.FooterOps | app.py:149-167 | the footer neither saves nor restores |
| Decorator.FooterDraws | app.py:149-167 | the footer draws its bar in green, then in white 8-point Helvetica the platform line ending in the generation time |
| Decorator.BorderOps | app.py:169-179 | the border neither saves nor restores |
| Decorator.BorderDraws | app.py:169-179 | the border is one stroked, unfilled rectangle in green with a half-point line |
| Decorator.DecorationOps | app.py:115-181 | 22 operations that open with a save and close with a restore |
| Decorator.BracketKeepsMarks | app.py:118-181 | a save, a body that ends level, a restore: what the body drew stays, the drawing and saved states come back |
| Decorator.DecorationDraws | app.py:115-181 | decorating a page adds exactly six marks after what was drawn before, and hands back the drawing and saved states it got |
| Decorator.AffidavitWatermarkAnchor | app.py:144 | on the affidavit page the watermark turns about (306, 315): centred across the frame, 72 points below the frame's middle and 81 below the page's |
| Decorator.DrawnMarksShape | app.py:120-179 | those six marks, in order: header bar green, wordmark white, watermark light green and the only one turned, footer bar green, footer line white, border stroked green |
| Decorator.DecorationBalanced | app.py:115-181 | the page decoration never restores more than it saved and ends level |
| Decorator.DecorationRestoresState | app.py:115-181 | decorating a page never fails and leaves colours, font, line width, transformation and the saved states as they were |
| Decorator.DecorationGeometry | app.py:120-179 | header and footer bars span the full page width; the border encloses the text frame with 10 points to spare at each side and reaches below the bottom margin |
| Decorator.AffidavitBorderOnPage | app.py:169-195 | on the affidavit's letter page the border runs from 62 points in on each side and from 36 points above the bottom edge up to the top edge |
| Endpoints.Filename | app.py:84 | the file name starts "VAULT_Affidavit_", ends ".pdf", and has room for exactly the id, "_" and 8 suffix characters |
| Endpoints.FilenameRoundTrip | app.py:84 | the file name can be read back into the transaction id and the uuid's first 8 digits |
| Endpoints.DistinctSuffixesDistinctNames | app.py:84 | generations whose suffixes differ never share a file name, whatever their transaction ids |
| Endpoints.PdfUrl | app.py:91 | the returned path is "/download-affidavit/" followed by the file name |
| Endpoints.PathPart | app.py:98 | the router matches the part of a URL before the first "?" or "#": a prefix of the URL without either, followed in the URL by a "?" or "#" when it stops short, and all of a URL that has neither |
| Endpoints.RouteFilename | app.py:98 | whatever the download route reads out of a URL is a non-empty file name without "/", "?" or "#" whose download path starts the URL, and is the URL when it has no query or fragment |
| Endpoints.UrlRoutesToFile | app.py:84-98 | for an id without "/", "?", "#" or "%", the returned path leads the download route to the very file written |
| Endpoints.QueryMarkCutsRoute | app.py:84-98 | an id with a "?" breaks the round trip: the route reads the name cut at the "?", which is not the file written |
| Endpoints.GenerateAffidavit | app.py:77-96 | a failed dependency is passed on without touching storage; success iff authorised and rendering succeeds; success stores the bytes under the returned name and leaves other files alone; a rendering failure leaves storage alone and becomes the 500 error |
| Endpoints.DownloadAffidavit | app.py:98-112 | a failed dependency is passed on; an absent name gives 404 "PDF not found"; otherwise the stored bytes come back unchanged as application/pdf under their own name |
| Endpoints.GenerateThenDownload | app.py:82-112 | downloading the name a successful generation returns yields exactly the rendered bytes |
| Endpoints.LaterGenerationKeepsFile | app.py:84-88 | a generation writing another name leaves any earlier file downloadable as before |
| Endpoints.SameSuffixOverwrites | app.py:84-88 | a generation for the same id whose first 8 uuid digits match an earlier file's writes that same name and replaces the file; no new name appears |
| Service.Generate | app.py:58-96 | corrected composition: without the exact credential, generation is a 401 and storage is unchanged; success implies the exact credential; with it, generation succeeds iff rendering succeeds, the rendered bytes are stored under `Endpoints.Filename` of the transaction id and hex, and a rendering error is a 500 with storage unchanged |
| Service.Download | app.py:58-112 | corrected composition: without the exact credential, download is a 401; with it, the download succeeds iff the file is stored, else 404 |
| Service.UnauthorizedNeverRenders | app.py:58-78 | corrected composition: with a wrong credential the outcome does not depend on the backend at all, so no rendering happens |
| Service.AliceToBob | app.py:77-112 | corrected composition: Alice pays Bob 100.5 USD, transaction TX123: the file is "VAULT_Affidavit_TX123_" + 8 lower-case hex digits + ".pdf"; its download returns the rendered bytes |
| Service.GenerateAsWritten | app.py:58-96 | as written: unless the header starts with "Bearer " and removing every "Bearer " leaves the key, generation is a 401 and storage is unchanged; success implies exactly that; when it holds, generation succeeds iff rendering succeeds, the rendered bytes are stored under `Endpoints.Filename` of the transaction id and hex, and a rendering error is a 500 with storage unchanged |
| Service.DownloadAsWritten | app.py:58-112 | as written: the same condition guards download; when it holds, download succeeds iff the file is stored, else 404 |
| Service.DoubledPrefixReachesStorage | app.py:58-96 | as written, "Bearer Bearer k" with key "k" renders, stores and downloads an affidavit; the corrected composition refuses it with "Invalid API key" and leaves storage alone |

## Findings

| source | as written | input that shows it | evidently intended | confidence | as-written member | corrected member |
|---|---|---|---|---|---|---|
| app.py:62 | the token is `authorization.replace("Bearer ", "")`, which removes every occurrence of "Bearer ", not just the leading one | header "Bearer Bearer k" is accepted for key "k". A key containing "Bearer ", such as "xBearer y", is never accepted with its own canonical header "Bearer xBearer y" | strip only the leading "Bearer ", so the credential must equal the key exactly | medium, not executed | Auth.VerifyApiKeyAsWritten (with Auth.DoubledPrefixAsWritten, Auth.CanonicalHeaderAsWritten, Service.GenerateAsWritten, Service.DownloadAsWritten, Service.DoubledPrefixReachesStorage) | Auth.VerifyApiKey (with Auth.DoubledPrefixRejected, Auth.ChecksAgreeOnPlainHeaders, Service.Generate, Service.Download, Service.UnauthorizedNeverRenders, Service.AliceToBob) |

`Service.Generate`, `Service.Download`, `Service.UnauthorizedNeverRenders`
and `Service.AliceToBob` model the service with the corrected check.
`Service.GenerateAsWritten` and `Service.DownloadAsWritten` model it with the
check as app.py writes it. The endpoints in `Endpoints` take the outcome of
the check as a parameter, so they behave the same under either check.

Other facts about the code that the model keeps:

- The verification keys carry a trailing colon ("Verification Status:"); the
  detail keys do not.
- The transaction id goes into the file name and the download path without
  any sanitising or URL encoding.
- The generation time is read from the clock separately for the verification
  sentence and for each footer. The model takes these as separate
  parameters.
- The watermark is anchored half the frame height above the bottom edge of
  the page, not at the frame's middle: on the affidavit page that is 72
  points below the frame's middle.
- The watermark sets its font and fill colour before its own save, so they
  stay in force until the closing restore of the decoration.

## Left out

- Authorization header absence: a request without the header is rejected by FastAPI with a 422 before `verify_api_key` runs (app.py:58 declares it with `Header(...)`). The model takes the header as a string, so that case is not represented.
- FastAPI wiring is not modelled: app construction, CORS, the root endpoint, header injection, and `FileResponse` streaming. These are framework plumbing. The dependency appears only as its outcome.
- reportlab rendering is not modelled: paragraph and table styles, fonts inside tables, pagination and `doc.build`. This is foreign library code. Blocks keep only their kind, text, rows, column widths, spacer heights and style name, and the backend is a function parameter.
- Clock, uuid and number formatting are not modelled: `datetime.now()`, `strftime`, `uuid.uuid4()` and `str()` of the float amount. They are opaque strings passed in.
- Filesystem and environment are not modelled: `os.makedirs`, `os.path.join` and `os.path.exists` on real paths, and loading `API_KEY` from the environment. Storage is a map keyed by file name, so a transaction id containing "/" (a sub-directory path) is not modelled. The key is a parameter.
- A partly written file left by a rendering failure is not modelled. The model leaves storage unchanged on failure.
- Which pages the decoration runs on is not modelled. reportlab calls the same routine for the first and later pages. The model covers one page's decoration.
- URL encoding is not modelled: the download path is built without encoding the file name, and percent-decoding of the requested path by the framework is left out. `Endpoints.UrlRoutesToFile` therefore excludes ids containing "%" as well as "/", "?" and "#"; `Endpoints.QueryMarkCutsRoute` shows what a "?" does.
- Text.RemoveAll: only models `replace` with a non-empty pattern. That is the only way the code uses it.
- Text.Upper: only ASCII letters are upper-cased, unlike Python's full Unicode `upper()`. The input is always hex.
- Decorator positions are exact reals. Python computes them in binary floating point, so values like 0.3 * 72 are not exact there.

=== FILE: api.dfy ===
/** The request/response contract of the service: the transaction record a
    caller submits, the reference it gets back, and the HTTP errors the
    endpoints raise (app.py:47-71, 96, 106). */
module Api {
  import opened Results
  import opened Text

  newtype byte = x: int | 0 <= x < 256

  /** Points per inch, the unit of every measurement on the page. */
  const Inch: real := 72.0

  /** One affidavit request. `amount` is the text `str(amount)` gives for the
      float amount and `date` is the text the date formats to under
      `"%B %d, %Y at %H:%M:%S UTC"`; the model never looks inside either. */
  datatype AffidavitRequest = AffidavitRequest(
    sender: string,
    receiver: string,
    amount: string,
    currency: string,
    date: string,
    transactionId: string,
    notes: Option<string>)

  /** What a successful generation returns: the download path and the file name. */
  datatype AffidavitResponse = AffidavitResponse(pdfUrl: string, filename: string)

  /** An `HTTPException`: a status code and a detail message. */
  datatype HttpError = HttpError(status: nat, detail: string)

  const InvalidFormat := HttpError(401, "Invalid authorization header format")
  const InvalidKey := HttpError(401, "Invalid API key")
  const NotFound := HttpError(404, "PDF not found")
  const GenerationFailedPrefix := "PDF generation failed: "

  /** The 500 error every exception raised during generation is turned into. */
  function GenerationFailed(message: string): (e: HttpError)
    ensures e.status == 500
    ensures StartsWith(e.detail, GenerationFailedPrefix)
    ensures e.detail[|GenerationFailedPrefix|..] == message
  {
    HttpError(500, GenerationFailedPrefix + message)
  }

  /** Python's truth test `if data.notes:` — present and not the empty string. */
  predicate HasNotes(request: AffidavitRequest)
    ensures request.notes.None? ==> !HasNotes(request)
    ensures request.notes == Some("") ==> !HasNotes(request)
    ensures request.notes.Some? && |request.notes.value| > 0 ==> HasNotes(request)
  {
    request.notes.Some? && request.notes.value != ""
  }
}

=== FILE: auth.dfy ===
/** The bearer-header check every endpoint depends on (app.py:58-66). */
module Auth {
  import opened Results
  import opened Text
  import opened Api

  const BearerPrefix := "Bearer "

  /** The check as the source writes it: the header must start with
      `"Bearer "`, and the token is the header with EVERY occurrence of
      `"Bearer "` removed (`str.replace`), which must equal the configured key. */
  function VerifyApiKeyAsWritten(authorization: string, apiKey: string): (r: Result<string, HttpError>)
    ensures !StartsWith(authorization, BearerPrefix) ==> r == Err(InvalidFormat)
    ensures StartsWith(authorization, BearerPrefix) ==>
              (r.Ok? <==> RemoveAll(authorization, BearerPrefix) == apiKey)
    ensures (StartsWith(authorization, BearerPrefix) && RemoveAll(authorization, BearerPrefix) != apiKey)
            ==> r == Err(InvalidKey)
    ensures r.Ok? ==> r.value == apiKey
    ensures r.Err? ==> r.error.status == 401
  {
    if !StartsWith(authorization, BearerPrefix) then Err(InvalidFormat)
    else
      var token := RemoveAll(authorization, BearerPrefix);
      if token != apiKey then Err(InvalidKey) else Ok(token)
  }

  /** With the check as written, the canonical header `"Bearer " + key` is
      accepted exactly when the key itself does not contain `"Bearer "`. */
  lemma CanonicalHeaderAsWritten(apiKey: string)
    ensures VerifyApiKeyAsWritten(BearerPrefix + apiKey, apiKey).Ok?
            <==> !Contains(apiKey, BearerPrefix)
  {
    var header := BearerPrefix + apiKey;
    assert header[..|BearerPrefix|] == BearerPrefix;
    assert header[|BearerPrefix|..] == apiKey;
    RemoveAllFixedPoint(apiKey, BearerPrefix);
  }

  /** With the check as written, any number of `"Bearer "` prefixes in front
      of a key without `"Bearer "` in it is accepted, and yields that key. */
  lemma RepeatedPrefixAsWritten(apiKey: string, n: nat)
    requires n >= 1
    requires !Contains(apiKey, BearerPrefix)
    ensures VerifyApiKeyAsWritten(Repeat(BearerPrefix, n) + apiKey, apiKey) == Ok(apiKey)
  {
    var header := Repeat(BearerPrefix, n) + apiKey;
    assert header == BearerPrefix + (Repeat(BearerPrefix, n - 1) + apiKey);
    assert StartsWith(header, BearerPrefix);
    RemoveAllLeadingCopies(apiKey, BearerPrefix, n);
    RemoveAllAbsent(apiKey, BearerPrefix);
  }

  /** The concrete case: `"Bearer Bearer k"` passes for the key `"k"`. */
  lemma DoubledPrefixAsWritten()
    ensures VerifyApiKeyAsWritten("Bearer Bearer k", "k") == Ok("k")
  {
    assert !Contains("k", BearerPrefix);
    assert Repeat(BearerPrefix, 2) + "k" == "Bearer Bearer k";
    RepeatedPrefixAsWritten("k", 2);
  }

  /** The check as intended: strip the leading `"Bearer "` only, so the
      credential after it must be exactly the configured key. */
  function VerifyApiKey(authorization: string, apiKey: string): (r: Result<string, HttpError>)
    ensures r.Ok? <==> authorization == BearerPrefix + apiKey
    ensures r.Ok? ==> r.value == apiKey
    ensures !StartsWith(authorization, BearerPrefix) ==> r == Err(InvalidFormat)
    ensures (StartsWith(authorization, BearerPrefix) && authorization[|BearerPrefix|..] != apiKey)
            ==> r == Err(InvalidKey)
    ensures r.Err? ==> r.error.status == 401
  {
    if !StartsWith(authorization, BearerPrefix) then Err(InvalidFormat)
    else
      var token := authorization[|BearerPrefix|..];
      assert authorization == BearerPrefix + token;
      if token != apiKey then Err(InvalidKey) else Ok(token)
  }

  /** The two checks agree on every header whose credential part contains no
      further `"Bearer "`, which covers every well-formed header. */
  lemma ChecksAgreeOnPlainHeaders(authorization: string, apiKey: string)
    requires StartsWith(authorization, BearerPrefix) ==>
               !Contains(authorization[|BearerPrefix|..], BearerPrefix)
    ensures VerifyApiKey(authorization, apiKey) == VerifyApiKeyAsWritten(authorization, apiKey)
  {
    if StartsWith(authorization, BearerPrefix) {
      var rest := authorization[|BearerPrefix|..];
      assert authorization == Repeat(BearerPrefix, 1) + rest;
      RemoveAllLeadingCopies(rest, BearerPrefix, 1);
      RemoveAllAbsent(rest, BearerPrefix);
    }
  }

  /** The intended check refuses the doubled prefix the written one lets through. */
  lemma DoubledPrefixRejected()
    ensures VerifyApiKey("Bearer Bearer k", "k") == Err(InvalidKey)
  {
    assert "Bearer Bearer k"[..|BearerPrefix|] == BearerPrefix;
    assert "Bearer Bearer k"[|BearerPrefix|..] == "Bearer k";
  }
}

=== FILE: decorator.dfy ===
/** The page decoration `add_page_elements` draws on every page
    (app.py:115-181), as the list of canvas operations it issues, together
    with the meaning of those operations on a canvas that keeps a stack of
    saved drawing states. The point of the model is that decoration is a
    scoped overlay: the canvas comes out with the drawing state it went in
    with. Positions are in points. */
module Decorator {
  import opened Results
  import opened Api

  /** A colour given by its `#rrggbb` components. */
  datatype Color = Rgb(red: nat, green: nat, blue: nat)

  const VaultGreen := Rgb(0x1e, 0x84, 0x49)
  const VaultLightGreen := Rgb(0xc8, 0xe6, 0xc9)
  const VaultWhite := Rgb(0xff, 0xff, 0xff)

  datatype Font = Font(name: string, size: nat)

  datatype Transform = Translate(dx: real, dy: real) | Rotate(degrees: real)

  /** The part of the drawing state a `saveState`/`restoreState` pair brackets. */
  datatype GraphicsState = GraphicsState(
    fill: Color,
    stroke: Color,
    font: Font,
    lineWidth: real,
    transforms: seq<Transform>)

  datatype CanvasOp =
    | SaveState
    | RestoreState
    | SetFillColor(color: Color)
    | SetStrokeColor(color: Color)
    | SetFont(font: Font)
    | SetLineWidth(width: real)
    | Apply(transform: Transform)
    | Rect(x: real, y: real, width: real, height: real, filled: bool, stroked: bool)
    | DrawString(atX: real, atY: real, text: string, centred: bool)

  /** Something drawn, with the drawing state it was drawn in. */
  datatype Mark = Mark(op: CanvasOp, state: GraphicsState)

  /** A page canvas: the current state, the saved states (innermost last) and
      what has been drawn so far. */
  datatype Canvas = Canvas(state: GraphicsState, saved: seq<GraphicsState>, marks: seq<Mark>)

  /** The frame of a page template: the text area and the margins around it. */
  datatype Doc = Doc(width: real, height: real,
                     leftMargin: real, rightMargin: real,
                     topMargin: real, bottomMargin: real)

  /** US letter is 8.5 by 11 inches. */
  const LetterWidth: real := 8.5 * Inch
  const LetterHeight: real := 11.0 * Inch

  /** The template of the affidavit: letter paper, margins of 72 points except
      90 at the top (app.py:188-195). */
  const AffidavitDoc := Doc(LetterWidth - 72.0 - 72.0, LetterHeight - 90.0 - 72.0,
                            72.0, 72.0, 90.0, 72.0)

  /** One canvas operation; restoring with nothing saved is an error. */
  function Step(c: Canvas, op: CanvasOp): (r: Option<Canvas>)
    ensures r.None? <==> op.RestoreState? && c.saved == []
    ensures r.Some? && op.SaveState? ==> r.value.saved == c.saved + [c.state]
    ensures r.Some? && !op.SaveState? && !op.RestoreState? ==> r.value.saved == c.saved
    ensures r.Some? ==> |c.marks| <= |r.value.marks| && r.value.marks[..|c.marks|] == c.marks
  {
    match op
    case SaveState => Some(c.(saved := c.saved + [c.state]))
    case RestoreState =>
      if c.saved == [] then None
      else Some(c.(state := c.saved[|c.saved| - 1], saved := c.saved[..|c.saved| - 1]))
    case SetFillColor(color) => Some(c.(state := c.state.(fill := color)))
    case SetStrokeColor(color) => Some(c.(state := c.state.(stroke := color)))
    case SetFont(font) => Some(c.(state := c.state.(font := font)))
    case SetLineWidth(width) => Some(c.(state := c.state.(lineWidth := width)))
    case Apply(t) => Some(c.(state := c.state.(transforms := c.state.transforms + [t])))
    case Rect(_, _, _, _, _, _) => Some(c.(marks := c.marks + [Mark(op, c.state)]))
    case DrawString(_, _, _, _) => Some(c.(marks := c.marks + [Mark(op, c.state)]))
  }

  /** A list of operations, in order; `None` once one of them fails. */
  function Run(c: Canvas, ops: seq<CanvasOp>): (r: Option<Canvas>)
    ensures ops == [] ==> r == Some(c)
    ensures r.Some? ==> |c.marks| <= |r.value.marks| && r.value.marks[..|c.marks|] == c.marks
  {
    if ops == [] then Some(c)
    else match Run(c, ops[..|ops| - 1])
      case None => None
      case Some(c') => Step(c', ops[|ops| - 1])
  }

  /** How an operation changes the number of saved states. */
  function Delta(op: CanvasOp): int {
    if op.SaveState? then 1 else if op.RestoreState? then -1 else 0
  }

  /** The net number of saves over restores in a list of operations. */
  function Depth(ops: seq<CanvasOp>): int {
    if ops == [] then 0 else Depth(ops[..|ops| - 1]) + Delta(ops[|ops| - 1])
  }

  /** Never more restores than saves so far, and as many of each in the end. */
  predicate Balanced(ops: seq<CanvasOp>) {
    Depth(ops) == 0 && forall k :: 0 <= k <= |ops| ==> Depth(ops[..k]) >= 0
  }

  /** No save or restore at all. */
  predicate Flat(ops: seq<CanvasOp>) {
    forall op :: op in ops ==> !op.SaveState? && !op.RestoreState?
  }

  lemma {:induction false} DepthAppend(a: seq<CanvasOp>, b: seq<CanvasOp>)
    ensures Depth(a + b) == Depth(a) + Depth(b)
    decreases |b|
  {
    if b == [] {
      assert a + b == a;
    } else {
      assert (a + b)[..|a + b| - 1] == a + b[..|b| - 1];
      DepthAppend(a, b[..|b| - 1]);
    }
  }

  lemma {:induction false} FlatDepth(ops: seq<CanvasOp>)
    requires Flat(ops)
    ensures Depth(ops) == 0
    decreases |ops|
  {
    if ops != [] {
      assert ops[|ops| - 1] in ops;
      assert Flat(ops[..|ops| - 1]) by {
        forall op | op in ops[..|ops| - 1] ensures op in ops {
        }
      }
      FlatDepth(ops[..|ops| - 1]);
    }
  }

  /** Operations without saves or restores are balanced. */
  lemma FlatBalanced(ops: seq<CanvasOp>)
    requires Flat(ops)
    ensures Balanced(ops)
  {
    forall k | 0 <= k <= |ops| ensures Depth(ops[..k]) >= 0 {
      assert Flat(ops[..k]) by {
        forall op | op in ops[..k] ensures op in ops {
        }
      }
      FlatDepth(ops[..k]);
    }
    FlatDepth(ops);
  }

  /** Balanced lists stay balanced when put one after the other. */
  lemma ConcatBalanced(a: seq<CanvasOp>, b: seq<CanvasOp>)
    requires Balanced(a) && Balanced(b)
    ensures Balanced(a + b)
  {
    DepthAppend(a, b);
    forall k | 0 <= k <= |a + b| ensures Depth((a + b)[..k]) >= 0 {
      if k <= |a| {
        assert (a + b)[..k] == a[..k];
      } else {
        assert (a + b)[..k] == a + b[..k - |a|];
        DepthAppend(a, b[..k - |a|]);
      }
    }
  }

  /** A balanced list bracketed by a save and a restore is balanced. */
  lemma BracketBalanced(body: seq<CanvasOp>)
    requires Balanced(body)
    ensures Balanced([SaveState] + body + [RestoreState])
  {
    var ops := [SaveState] + body + [RestoreState];
    DepthAppend([SaveState], body);
    DepthAppend([SaveState] + body, [RestoreState]);
    assert Depth([SaveState]) == 1 by {
      assert [SaveState][..0] == [];
    }
    assert Depth([RestoreState]) == -1 by {
      assert [RestoreState][..0] == [];
    }
    forall k | 0 <= k <= |ops| ensures Depth(ops[..k]) >= 0 {
      if k == 0 {
      } else if k <= |body| + 1 {
        assert ops[..k] == [SaveState] + body[..k - 1];
        DepthAppend([SaveState], body[..k - 1]);
      } else {
        assert ops[..k] == ops;
      }
    }
  }

  /** Running a list whose saves never fall behind its restores cannot fail,
      and leaves the states saved before it in place below the ones it adds. */
  lemma {:induction false} RunKeepsSaved(c: Canvas, ops: seq<CanvasOp>)
    requires forall k :: 0 <= k <= |ops| ==> Depth(ops[..k]) >= 0
    ensures Run(c, ops).Some?
    ensures |Run(c, ops).value.saved| == |c.saved| + Depth(ops)
    ensures |c.saved| <= |Run(c, ops).value.saved|
    ensures Run(c, ops).value.saved[..|c.saved|] == c.saved
    decreases |ops|
  {
    assert ops[..|ops|] == ops;
    if ops != [] {
      var init := ops[..|ops| - 1];
      forall k | 0 <= k <= |init| ensures Depth(init[..k]) >= 0 {
        assert init[..k] == ops[..k];
      }
      RunKeepsSaved(c, init);
      assert ops[..|ops|] == ops;
      var c' := Run(c, init).value;
      var last := ops[|ops| - 1];
      if last.RestoreState? {
        assert c'.saved[..|c.saved|] == c'.saved[..|c'.saved| - 1][..|c.saved|];
      } else if last.SaveState? {
        assert (c'.saved + [c'.state])[..|c.saved|] == c'.saved[..|c.saved|];
      }
    }
  }

  /** Running two lists one after the other is running their concatenation. */
  lemma {:induction false} RunAppend(c: Canvas, a: seq<CanvasOp>, b: seq<CanvasOp>)
    ensures Run(c, a + b) == match Run(c, a)
                             case None => None
                             case Some(c') => Run(c', b)
    decreases |b|
  {
    if b == [] {
      assert a + b == a;
    } else {
      assert (a + b)[..|a + b| - 1] == a + b[..|b| - 1];
      assert (a + b)[|a + b| - 1] == b[|b| - 1];
      RunAppend(c, a, b[..|b| - 1]);
    }
  }

  /** A balanced list bracketed by save and restore hands back the canvas with
      the drawing state and the saved states it started with. */
  lemma BracketRestores(c: Canvas, body: seq<CanvasOp>)
    requires Balanced(body)
    ensures Run(c, [SaveState] + body + [RestoreState]).Some?
    ensures Run(c, [SaveState] + body + [RestoreState]).value.state == c.state
    ensures Run(c, [SaveState] + body + [RestoreState]).value.saved == c.saved
  {
    var c1 := c.(saved := c.saved + [c.state]);
    assert Run(c, [SaveState]) == Some(c1) by {
      assert [SaveState][..0] == [];
    }
    RunAppend(c, [SaveState], body);
    RunKeepsSaved(c1, body);
    var c2 := Run(c1, body).value;
    assert c2.saved == c1.saved;
    RunAppend(c, [SaveState] + body, [RestoreState]);
    assert Run(c2, [RestoreState]) == Step(c2, RestoreState) by {
      assert [RestoreState][..0] == [];
    }
  }

  const FooterLabel := "VAULT Financial | Transaction Record | Generated on "

  /** The green header bar with the white "VAULT" wordmark (app.py:120-138). */
  function HeaderOps(doc: Doc): (ops: seq<CanvasOp>)
    ensures Flat(ops)
  {
    [ SetFillColor(VaultGreen),
      Rect(0.0, doc.height + doc.topMargin - 0.5 * Inch,
           doc.width + doc.leftMargin + doc.rightMargin, 0.5 * Inch, true, false),
      SetFillColor(VaultWhite),
      SetFont(Font("Helvetica-Bold", 16)),
      DrawString(doc.leftMargin, doc.height + doc.topMargin - 0.3 * Inch, "VAULT", false) ]
  }

  /** The diagonal light-green watermark, drawn under its own save/restore
      (app.py:140-147). */
  function WatermarkOps(doc: Doc): (ops: seq<CanvasOp>)
    ensures |ops| == 7 && ops[2] == SaveState && ops[6] == RestoreState
    ensures Flat(ops[..2]) && Flat(ops[3..6])
  {
    [ SetFont(Font("Helvetica-Bold", 80)),
      SetFillColor(VaultLightGreen),
      SaveState,
      Apply(Translate(doc.width / 2.0 + doc.leftMargin, doc.height / 2.0)),
      Apply(Rotate(45.0)),
      DrawString(0.0, 0.0, "VAULT", true),
      RestoreState ]
  }

  /** The green footer bar with the centred generation line (app.py:149-167). */
  function FooterOps(doc: Doc, generatedAt: string): (ops: seq<CanvasOp>)
    ensures Flat(ops)
  {
    [ SetFillColor(VaultGreen),
      Rect(0.0, doc.bottomMargin - 0.4 * Inch,
           doc.width + doc.leftMargin + doc.rightMargin, 0.3 * Inch, true, false),
      SetFillColor(VaultWhite),
      SetFont(Font("Helvetica", 8)),
      DrawString(doc.width / 2.0 + doc.leftMargin, doc.bottomMargin - 0.25 * Inch,
                 FooterLabel + generatedAt, true) ]
  }

  /** The thin green border (app.py:169-179). */
  function BorderOps(doc: Doc): (ops: seq<CanvasOp>)
    ensures Flat(ops)
  {
    [ SetStrokeColor(VaultGreen),
      SetLineWidth(0.5),
      Rect(doc.leftMargin - 10.0, doc.bottomMargin - 0.5 * Inch,
           doc.width + 20.0, doc.height + doc.topMargin + 0.5 * Inch, false, true) ]
  }

  /** Everything `add_page_elements` does to one page, `generatedAt` being the
      time the footer prints. */
  function DecorationOps(doc: Doc, generatedAt: string): (ops: seq<CanvasOp>)
    ensures |ops| == 22
    ensures ops[0] == SaveState && ops[21] == RestoreState
  {
    [SaveState] + (HeaderOps(doc) + WatermarkOps(doc) + FooterOps(doc, generatedAt) + BorderOps(doc))
    + [RestoreState]
  }

  /** The decoration never restores more than it saved and ends level. */
  lemma DecorationBalanced(doc: Doc, generatedAt: string)
    ensures Balanced(HeaderOps(doc) + WatermarkOps(doc) + FooterOps(doc, generatedAt) + BorderOps(doc))
    ensures Balanced(DecorationOps(doc, generatedAt))
  {
    var mark := WatermarkOps(doc);
    var inner := [mark[3], mark[4], mark[5]];
    assert mark == [mark[0], mark[1]] + ([SaveState] + inner + [RestoreState]);
    FlatBalanced(inner);
    BracketBalanced(inner);
    FlatBalanced([mark[0], mark[1]]);
    ConcatBalanced([mark[0], mark[1]], [SaveState] + inner + [RestoreState]);
    FlatBalanced(HeaderOps(doc));
    FlatBalanced(FooterOps(doc, generatedAt));
    FlatBalanced(BorderOps(doc));
    ConcatBalanced(HeaderOps(doc), mark);
    ConcatBalanced(HeaderOps(doc) + mark, FooterOps(doc, generatedAt));
    ConcatBalanced(HeaderOps(doc) + mark + FooterOps(doc, generatedAt), BorderOps(doc));
    BracketBalanced(HeaderOps(doc) + mark + FooterOps(doc, generatedAt) + BorderOps(doc));
  }

  /** Decorating a page never fails and leaves the drawing state (colours,
      font, line width, transformation) and the saved states exactly as they
      were, so the page content drawn afterwards is unaffected. */
  lemma DecorationRestoresState(c: Canvas, doc: Doc, generatedAt: string)
    ensures Run(c, DecorationOps(doc, generatedAt)).Some?
    ensures Run(c, DecorationOps(doc, generatedAt)).value.state == c.state
    ensures Run(c, DecorationOps(doc, generatedAt)).value.saved == c.saved
  {
    DecorationBalanced(doc, generatedAt);
    BracketRestores(c, HeaderOps(doc) + WatermarkOps(doc) + FooterOps(doc, generatedAt) + BorderOps(doc));
  }

  /** One more step after an outcome that may already have failed. */
  function Then(r: Option<Canvas>, op: CanvasOp): Option<Canvas> {
    match r
    case None => None
    case Some(c) => Step(c, op)
  }

  /** Running one more operation of a list is one more step. */
  lemma RunPrefix(c: Canvas, ops: seq<CanvasOp>, k: nat)
    requires k < |ops|
    ensures Run(c, ops[..k + 1]) == Then(Run(c, ops[..k]), ops[k])
  {
    assert ops[..k + 1][..k] == ops[..k];
  }

  /** Three operations, one after the other. */
  lemma RunThree(c: Canvas, ops: seq<CanvasOp>)
    requires |ops| == 3
    ensures Run(c, ops) == Then(Then(Step(c, ops[0]), ops[1]), ops[2])
  {
    assert ops[..0] == [];
    RunPrefix(c, ops, 0);
    RunPrefix(c, ops, 1);
    RunPrefix(c, ops, 2);
    assert ops[..3] == ops;
  }

  /** Five operations, one after the other. */
  lemma RunFive(c: Canvas, ops: seq<CanvasOp>)
    requires |ops| == 5
    ensures Run(c, ops) == Then(Then(Then(Then(Step(c, ops[0]), ops[1]), ops[2]), ops[3]), ops[4])
  {
    assert ops[..0] == [];
    RunPrefix(c, ops, 0);
    RunPrefix(c, ops, 1);
    RunPrefix(c, ops, 2);
    RunPrefix(c, ops, 3);
    RunPrefix(c, ops, 4);
    assert ops[..5] == ops;
  }

  /** Seven operations, one after the other. */
  lemma RunSeven(c: Canvas, ops: seq<CanvasOp>)
    requires |ops| == 7
    ensures Run(c, ops) == Then(Then(Run(c, ops[..5]), ops[5]), ops[6])
  {
    RunPrefix(c, ops, 5);
    RunPrefix(c, ops, 6);
    assert ops[..7] == ops;
  }

  /** The header draws the bar in green and then the wordmark in white bold
      16-point type; it leaves the fill colour white and the font set. */
  lemma HeaderDraws(c: Canvas, doc: Doc)
    ensures var ops := HeaderOps(doc);
            var green := c.state.(fill := VaultGreen);
            var white := c.state.(fill := VaultWhite, font := Font("Helvetica-Bold", 16));
            && ops[1].Rect? && ops[4].DrawString? && ops[4].text == "VAULT"
            && Run(c, ops) == Some(c.(state := white,
                                      marks := c.marks + [Mark(ops[1], green), Mark(ops[4], white)]))
  {
    var ops := HeaderOps(doc);
    HeaderSteps(c, doc);
    RunFive(c, ops);
  }

  /** The five steps of the header, one at a time. */
  lemma HeaderSteps(c: Canvas, doc: Doc)
    ensures var ops := HeaderOps(doc);
            var green := c.state.(fill := VaultGreen);
            var white := c.state.(fill := VaultWhite, font := Font("Helvetica-Bold", 16));
            Then(Then(Then(Then(Step(c, ops[0]), ops[1]), ops[2]), ops[3]), ops[4])
            == Some(c.(state := white, marks := c.marks + [Mark(ops[1], green), Mark(ops[4], white)]))
  {
    var ops := HeaderOps(doc);
    var green := c.state.(fill := VaultGreen);
    var white := c.state.(fill := VaultWhite, font := Font("Helvetica-Bold", 16));
    var m1 := c.marks + [Mark(ops[1], green)];
    var c1 := c.(state := green);
    var c2 := c1.(marks := m1);
    var c3 := c2.(state := green.(fill := VaultWhite));
    var c4 := c.(state := white, marks := m1);
    assert Step(c, ops[0]) == Some(c1);
    assert Then(Some(c1), ops[1]) == Some(c2);
    assert Then(Some(c2), ops[2]) == Some(c3);
    assert Then(Some(c3), ops[3]) == Some(c4);
    assert Then(Some(c4), ops[4]) == Some(c4.(marks := m1 + [Mark(ops[4], white)]));
    assert m1 + [Mark(ops[4], white)] == c.marks + [Mark(ops[1], green), Mark(ops[4], white)];
    RunFive(c, ops);
  }

  /** The watermark draws "VAULT" once, in light green bold 80-point type,
      moved to the horizontal centre of the frame and half the frame height
      above the bottom edge of the page, and turned by 45 degrees; the
      turn does not outlive it, but the font and fill colour it set do. */
  lemma WatermarkDraws(c: Canvas, doc: Doc)
    ensures var ops := WatermarkOps(doc);
            var styled := c.state.(fill := VaultLightGreen, font := Font("Helvetica-Bold", 80));
            var turned := styled.(transforms := styled.transforms
                                 + [Translate(doc.width / 2.0 + doc.leftMargin, doc.height / 2.0),
                                    Rotate(45.0)]);
            && ops[5].DrawString? && ops[5].text == "VAULT"
            && Run(c, ops) == Some(c.(state := styled, marks := c.marks + [Mark(ops[5], turned)]))
  {
    var ops := WatermarkOps(doc);
    WatermarkSteps(c, doc);
    assert Run(c, ops[..5]) == Then(Then(Then(Then(Step(c, ops[0]), ops[1]), ops[2]), ops[3]), ops[4]) by {
      RunFive(c, ops[..5]);
    }
    RunSeven(c, ops);
  }

  /** The seven steps of the watermark, one at a time. */
  lemma WatermarkSteps(c: Canvas, doc: Doc)
    ensures var ops := WatermarkOps(doc);
            var styled := c.state.(fill := VaultLightGreen, font := Font("Helvetica-Bold", 80));
            var turned := styled.(transforms := styled.transforms
                                 + [Translate(doc.width / 2.0 + doc.leftMargin, doc.height / 2.0),
                                    Rotate(45.0)]);
            Then(Then(Then(Then(Then(Then(Step(c, ops[0]), ops[1]), ops[2]), ops[3]), ops[4]), ops[5]), ops[6])
            == Some(c.(state := styled, marks := c.marks + [Mark(ops[5], turned)]))
  {
    var ops := WatermarkOps(doc);
    var styled := c.state.(fill := VaultLightGreen, font := Font("Helvetica-Bold", 80));
    var moved := styled.(transforms := styled.transforms
                           + [Translate(doc.width / 2.0 + doc.leftMargin, doc.height / 2.0)]);
    var turned := moved.(transforms := moved.transforms + [Rotate(45.0)]);
    var saved := c.saved + [styled];
    var c1 := c.(state := c.state.(font := Font("Helvetica-Bold", 80)));
    var c2 := c.(state := styled);
    var c3 := c2.(saved := saved);
    var c4 := c3.(state := moved);
    var c5 := c3.(state := turned);
    var c6 := c5.(marks := c.marks + [Mark(ops[5], turned)]);
    assert Step(c, ops[0]) == Some(c1);
    assert Then(Some(c1), ops[1]) == Some(c2);
    assert Then(Some(c2), ops[2]) == Some(c3);
    assert Then(Some(c3), ops[3]) == Some(c4);
    assert Then(Some(c4), ops[4]) == Some(c5);
    assert Then(Some(c5), ops[5]) == Some(c6);
    assert saved[..|saved| - 1] == c.saved;
    assert Then(Some(c6), ops[6]) == Some(c.(state := styled, marks := c6.marks));
    assert turned.transforms == styled.transforms
             + [Translate(doc.width / 2.0 + doc.leftMargin, doc.height / 2.0), Rotate(45.0)];
  }

  /** The footer draws its bar in green and then, in white 8-point type, the
      platform line ending in the generation time. */
  lemma FooterDraws(c: Canvas, doc: Doc, generatedAt: string)
    ensures var ops := FooterOps(doc, generatedAt);
            var green := c.state.(fill := VaultGreen);
            var white := c.state.(fill := VaultWhite, font := Font("Helvetica", 8));
            && ops[1].Rect? && ops[4].DrawString? && ops[4].text == FooterLabel + generatedAt
            && Run(c, ops) == Some(c.(state := white,
                                      marks := c.marks + [Mark(ops[1], green), Mark(ops[4], white)]))
  {
    FooterSteps(c, doc, generatedAt);
    RunFive(c, FooterOps(doc, generatedAt));
  }

  /** The five steps of the footer, one at a time. */
  lemma FooterSteps(c: Canvas, doc: Doc, generatedAt: string)
    ensures var ops := FooterOps(doc, generatedAt);
            var green := c.state.(fill := VaultGreen);
            var white := c.state.(fill := VaultWhite, font := Font("Helvetica", 8));
            Then(Then(Then(Then(Step(c, ops[0]), ops[1]), ops[2]), ops[3]), ops[4])
            == Some(c.(state := white, marks := c.marks + [Mark(ops[1], green), Mark(ops[4], white)]))
  {
    var ops := FooterOps(doc, generatedAt);
    var green := c.state.(fill := VaultGreen);
    var white := c.state.(fill := VaultWhite, font := Font("Helvetica", 8));
    var m1 := c.marks + [Mark(ops[1], green)];
    var c1 := c.(state := green);
    var c2 := c1.(marks := m1);
    var c3 := c2.(state := green.(fill := VaultWhite));
    var c4 := c.(state := white, marks := m1);
    assert Step(c, ops[0]) == Some(c1);
    assert Then(Some(c1), ops[1]) == Some(c2);
    assert Then(Some(c2), ops[2]) == Some(c3);
    assert Then(Some(c3), ops[3]) == Some(c4);
    assert Then(Some(c4), ops[4]) == Some(c4.(marks := m1 + [Mark(ops[4], white)]));
    assert m1 + [Mark(ops[4], white)] == c.marks + [Mark(ops[1], green), Mark(ops[4], white)];
  }

  /** The border is stroked, not filled, in green with a half-point line. */
  lemma BorderDraws(c: Canvas, doc: Doc)
    ensures var ops := BorderOps(doc);
            var pen := c.state.(stroke := VaultGreen, lineWidth := 0.5);
            && ops[2].Rect? && ops[2].stroked && !ops[2].filled
            && Run(c, ops) == Some(c.(state := pen, marks := c.marks + [Mark(ops[2], pen)]))
  {
    BorderSteps(c, doc);
    RunThree(c, BorderOps(doc));
  }

  /** The three steps of the border, one at a time. */
  lemma BorderSteps(c: Canvas, doc: Doc)
    ensures var ops := BorderOps(doc);
            var pen := c.state.(stroke := VaultGreen, lineWidth := 0.5);
            Then(Then(Step(c, ops[0]), ops[1]), ops[2])
            == Some(c.(state := pen, marks := c.marks + [Mark(ops[2], pen)]))
  {
    var ops := BorderOps(doc);
    var pen := c.state.(stroke := VaultGreen, lineWidth := 0.5);
    var c1 := c.(state := c.state.(stroke := VaultGreen));
    assert Step(c, ops[0]) == Some(c1);
    assert Then(Some(c1), ops[1]) == Some(c.(state := pen));
  }

  /** Bracketing a list that ends with the saved states it started with
      between a save and a restore keeps what it drew and nothing else. */
  lemma BracketKeepsMarks(c: Canvas, body: seq<CanvasOp>, after: Canvas)
    requires Run(c.(saved := c.saved + [c.state]), body) == Some(after)
    requires after.saved == c.saved + [c.state]
    ensures Run(c, [SaveState] + body + [RestoreState]) == Some(c.(marks := after.marks))
  {
    assert Run(c, [SaveState]) == Some(c.(saved := c.saved + [c.state])) by {
      assert [SaveState][..0] == [];
    }
    RunAppend(c, [SaveState], body);
    RunAppend(c, [SaveState] + body, [RestoreState]);
    assert Run(after, [RestoreState]) == Step(after, RestoreState) by {
      assert [RestoreState][..0] == [];
    }
    assert after.saved[..|after.saved| - 1] == c.saved;
  }

  /** Four lists run one after the other, each from where the last ended. */
  lemma RunChain(c: Canvas, a: seq<CanvasOp>, b: seq<CanvasOp>, d: seq<CanvasOp>, e: seq<CanvasOp>,
                 ca: Canvas, cb: Canvas, cd: Canvas, ce: Canvas)
    requires Run(c, a) == Some(ca) && Run(ca, b) == Some(cb)
    requires Run(cb, d) == Some(cd) && Run(cd, e) == Some(ce)
    ensures Run(c, a + b + d + e) == Some(ce)
  {
    RunAppend(c, a, b);
    RunAppend(c, a + b, d);
    RunAppend(c, a + b + d, e);
  }

  /** The six things the decoration draws when it starts from state `s`, each
      with the state it is drawn in. */
  function DrawnMarks(s: GraphicsState, doc: Doc, generatedAt: string): seq<Mark> {
    var sW := s.(fill := VaultLightGreen, font := Font("Helvetica-Bold", 80));
    var sF := s.(fill := VaultWhite, font := Font("Helvetica", 8));
    [ Mark(HeaderOps(doc)[1], s.(fill := VaultGreen)),
      Mark(HeaderOps(doc)[4], s.(fill := VaultWhite, font := Font("Helvetica-Bold", 16))),
      Mark(WatermarkOps(doc)[5],
           sW.(transforms := s.transforms
                 + [Translate(doc.width / 2.0 + doc.leftMargin, doc.height / 2.0), Rotate(45.0)])),
      Mark(FooterOps(doc, generatedAt)[1], sW.(fill := VaultGreen)),
      Mark(FooterOps(doc, generatedAt)[4], sF),
      Mark(BorderOps(doc)[2], sF.(stroke := VaultGreen, lineWidth := 0.5)) ]
  }

  /** The canvas after the first `k` parts of the decoration, started on `c`:
      the drawing state they leave and the marks they add. */
  function AfterParts(c: Canvas, doc: Doc, generatedAt: string, k: nat): Canvas
    requires 1 <= k <= 4
  {
    var drawn := DrawnMarks(c.state, doc, generatedAt);
    var sF := c.state.(fill := VaultWhite, font := Font("Helvetica", 8));
    if k == 1 then
      c.(state := c.state.(fill := VaultWhite, font := Font("Helvetica-Bold", 16)),
         marks := c.marks + drawn[..2])
    else if k == 2 then
      c.(state := c.state.(fill := VaultLightGreen, font := Font("Helvetica-Bold", 80)),
         marks := c.marks + drawn[..3])
    else if k == 3 then c.(state := sF, marks := c.marks + drawn[..5])
    else c.(state := sF.(stroke := VaultGreen, lineWidth := 0.5), marks := c.marks + drawn)
  }

  lemma HeaderPart(c: Canvas, doc: Doc, generatedAt: string)
    ensures Run(c, HeaderOps(doc)) == Some(AfterParts(c, doc, generatedAt, 1))
  {
    HeaderDraws(c, doc);
    var drawn := DrawnMarks(c.state, doc, generatedAt);
    assert drawn[..2] == [drawn[0], drawn[1]];
  }

  lemma WatermarkPart(c: Canvas, doc: Doc, generatedAt: string)
    ensures Run(AfterParts(c, doc, generatedAt, 1), WatermarkOps(doc))
            == Some(AfterParts(c, doc, generatedAt, 2))
  {
    WatermarkDraws(AfterParts(c, doc, generatedAt, 1), doc);
    var drawn := DrawnMarks(c.state, doc, generatedAt);
    assert c.marks + drawn[..2] + [drawn[2]] == c.marks + drawn[..3];
  }

  lemma FooterPart(c: Canvas, doc: Doc, generatedAt: string)
    ensures Run(AfterParts(c, doc, generatedAt, 2), FooterOps(doc, generatedAt))
            == Some(AfterParts(c, doc, generatedAt, 3))
  {
    FooterDraws(AfterParts(c, doc, generatedAt, 2), doc, generatedAt);
    var drawn := DrawnMarks(c.state, doc, generatedAt);
    assert c.marks + drawn[..3] + [drawn[3], drawn[4]] == c.marks + drawn[..5];
  }

  lemma BorderPart(c: Canvas, doc: Doc, generatedAt: string)
    ensures Run(AfterParts(c, doc, generatedAt, 3), BorderOps(doc))
            == Some(AfterParts(c, doc, generatedAt, 4))
  {
    BorderDraws(AfterParts(c, doc, generatedAt, 3), doc);
    var drawn := DrawnMarks(c.state, doc, generatedAt);
    assert c.marks + drawn[..5] + [drawn[5]] == c.marks + drawn;
  }

  /** The four parts of the decoration, run one after the other, draw the
      six marks and leave the state the footer and border set. */
  lemma PartsDraw(c: Canvas, doc: Doc, generatedAt: string)
    ensures Run(c, HeaderOps(doc) + WatermarkOps(doc) + FooterOps(doc, generatedAt) + BorderOps(doc))
            == Some(AfterParts(c, doc, generatedAt, 4))
  {
    HeaderPart(c, doc, generatedAt);
    WatermarkPart(c, doc, generatedAt);
    FooterPart(c, doc, generatedAt);
    BorderPart(c, doc, generatedAt);
    RunChain(c, HeaderOps(doc), WatermarkOps(doc), FooterOps(doc, generatedAt), BorderOps(doc),
             AfterParts(c, doc, generatedAt, 1), AfterParts(c, doc, generatedAt, 2),
             AfterParts(c, doc, generatedAt, 3), AfterParts(c, doc, generatedAt, 4));
  }

  /** What the decoration draws, read mark by mark: the header bar in green,
      the wordmark in white, the watermark in light green (the only mark
      drawn turned), the footer bar in green, the footer line in white, and
      the border in a green stroke. */
  lemma DrawnMarksShape(s: GraphicsState, doc: Doc, generatedAt: string)
    ensures var drawn := DrawnMarks(s, doc, generatedAt);
            && |drawn| == 6
            && drawn[0].op == HeaderOps(doc)[1] && drawn[0].state.fill == VaultGreen
            && drawn[1].op == HeaderOps(doc)[4] && drawn[1].state.fill == VaultWhite
            && drawn[2].op == WatermarkOps(doc)[5] && drawn[2].state.fill == VaultLightGreen
            && drawn[3].op == FooterOps(doc, generatedAt)[1] && drawn[3].state.fill == VaultGreen
            && drawn[4].op == FooterOps(doc, generatedAt)[4] && drawn[4].state.fill == VaultWhite
            && drawn[5].op == BorderOps(doc)[2] && drawn[5].state.stroke == VaultGreen
            && drawn[2].state.transforms
               == s.transforms
                  + [Translate(doc.width / 2.0 + doc.leftMargin, doc.height / 2.0), Rotate(45.0)]
            && forall i :: 0 <= i < 6 && i != 2 ==> drawn[i].state.transforms == s.transforms
  {
  }

  /** Decorating a page adds exactly the six marks of `DrawnMarks`, drawn from
      the state the page was in, after everything drawn before, which it
      leaves untouched; the drawing state and saved states come back as they
      were. */
  lemma DecorationDraws(c: Canvas, doc: Doc, generatedAt: string)
    ensures Run(c, DecorationOps(doc, generatedAt))
            == Some(c.(marks := c.marks + DrawnMarks(c.state, doc, generatedAt)))
  {
    var body := HeaderOps(doc) + WatermarkOps(doc) + FooterOps(doc, generatedAt) + BorderOps(doc);
    var c1 := c.(saved := c.saved + [c.state]);
    assert DecorationOps(doc, generatedAt) == [SaveState] + body + [RestoreState];
    PartsDraw(c1, doc, generatedAt);
    BracketKeepsMarks(c, body, AfterParts(c1, doc, generatedAt, 4));
  }

  /** The header and footer bars both run across the whole page width, and the
      border encloses the text frame with 10 points to spare at each side. */
  lemma DecorationGeometry(doc: Doc, generatedAt: string)
    requires doc.width >= 0.0 && doc.height >= 0.0 && doc.topMargin >= 0.0
    ensures var header := HeaderOps(doc)[1];
            header.Rect? && header.x == 0.0
            && header.width == doc.leftMargin + doc.width + doc.rightMargin
    ensures var footer := FooterOps(doc, generatedAt)[1];
            footer.Rect? && footer.x == 0.0
            && footer.width == doc.leftMargin + doc.width + doc.rightMargin
    ensures var border := BorderOps(doc)[2];
            && border.Rect? && border.stroked && !border.filled
            && border.x + 10.0 == doc.leftMargin
            && border.x + border.width == doc.leftMargin + doc.width + 10.0
            && border.y < doc.bottomMargin
            && border.y + border.height >= doc.bottomMargin + doc.height
  {
  }

  /** On the affidavit's letter page the border runs from 36 points above the
      bottom edge right up to the top edge, and stays within the paper. */
  lemma AffidavitBorderOnPage(generatedAt: string)
    ensures var border := BorderOps(AffidavitDoc)[2];
            && border.x == 62.0 && border.x + border.width == LetterWidth - 62.0
            && border.y == 36.0 && border.y + border.height == LetterHeight
  {
  }

  /** On the affidavit's letter page the watermark is turned about the point
      306 points from the left and 315 points from the bottom: centred across
      the frame, but 72 points below the frame's middle (387) and 81 below
      the page's (396). */
  lemma AffidavitWatermarkAnchor()
    ensures WatermarkOps(AffidavitDoc)[3] == Apply(Translate(306.0, 315.0))
    ensures AffidavitDoc.bottomMargin + AffidavitDoc.height / 2.0 == 387.0
    ensures LetterHeight / 2.0 == 396.0
  {
  }
}

=== FILE: endpoints.dfy ===
/** The two endpoints of the service (app.py:77-112): generating an
    affidavit and downloading one. The storage directory is a map from file
    name to the stored bytes; the bearer-header dependency is the outcome
    it produced, since the framework runs it before the handler and skips
    the handler when it raises. The PDF backend (`doc.build`) is a function
    from the content blocks to the bytes it writes or the message of the
    exception it raises. */
module Endpoints {
  import opened Results
  import opened Text
  import opened Api
  import opened Layout

  /** The storage directory: file name to file contents. */
  type Store = map<string, seq<byte>>

  /** The PDF backend: the bytes of the rendered document, or the message of
      the exception rendering raised. */
  type Backend = seq<Block> -> Result<seq<byte>, string>

  const FilenamePrefix := "VAULT_Affidavit_"
  const PdfExtension := ".pdf"
  const DownloadRoute := "/download-affidavit/"
  const PdfMediaType := "application/pdf"
  const SuffixLength := 8

  /** The file name of a new affidavit: the transaction id, then the first
      eight digits of a fresh `uuid4().hex` (app.py:84). */
  function Filename(transactionId: string, uuidHex: string): (name: string)
    ensures StartsWith(name, FilenamePrefix)
    ensures EndsWith(name, PdfExtension)
    ensures |uuidHex| >= SuffixLength ==>
              |name| == |FilenamePrefix| + |transactionId| + 1 + SuffixLength + |PdfExtension|
  {
    FilenamePrefix + transactionId + "_" + Take(uuidHex, SuffixLength) + PdfExtension
  }

  /** Reads a generated file name back into its transaction id and suffix. */
  function ParseFilename(name: string): (parts: Option<(string, string)>)
    ensures parts.Some? ==> |parts.value.1| == SuffixLength
  {
    var tail := 1 + SuffixLength + |PdfExtension|;
    if StartsWith(name, FilenamePrefix) && EndsWith(name, PdfExtension)
       && |name| >= |FilenamePrefix| + tail && name[|name| - tail] == '_'
    then Some((name[|FilenamePrefix|..|name| - tail], name[|name| - tail + 1..|name| - |PdfExtension|]))
    else None
  }

  /** The file name keeps the transaction id and the suffix apart: reading
      it back gives both. */
  lemma FilenameRoundTrip(transactionId: string, uuidHex: string)
    requires |uuidHex| >= SuffixLength
    ensures ParseFilename(Filename(transactionId, uuidHex))
            == Some((transactionId, uuidHex[..SuffixLength]))
  {
    var name := Filename(transactionId, uuidHex);
    var tail := 1 + SuffixLength + |PdfExtension|;
    assert name[|name| - tail] == '_';
    assert name[|FilenamePrefix|..|name| - tail] == transactionId;
    assert name[|name| - tail + 1..|name| - |PdfExtension|] == uuidHex[..SuffixLength];
  }

  /** Two generations whose suffixes differ never pick the same file name,
      whatever their transaction ids. */
  lemma DistinctSuffixesDistinctNames(id1: string, hex1: string, id2: string, hex2: string)
    requires |hex1| >= SuffixLength && |hex2| >= SuffixLength
    requires hex1[..SuffixLength] != hex2[..SuffixLength]
    ensures Filename(id1, hex1) != Filename(id2, hex2)
  {
    FilenameRoundTrip(id1, hex1);
    FilenameRoundTrip(id2, hex2);
  }

  /** The download path of a file (app.py:91). */
  function PdfUrl(filename: string): (url: string)
    ensures StartsWith(url, DownloadRoute)
    ensures url[|DownloadRoute|..] == filename
  {
    DownloadRoute + filename
  }

  /** The path part of a URL: everything before the first `?` (the query)
      or `#` (the fragment), which is what the router matches against. */
  function PathPart(url: string): (path: string)
    ensures StartsWith(url, path)
    ensures '?' !in path && '#' !in path
    ensures '?' !in url && '#' !in url ==> path == url
    ensures |path| < |url| ==> url[|path|] == '?' || url[|path|] == '#'
    decreases |url|
  {
    if url == [] || url[0] == '?' || url[0] == '#' then []
    else [url[0]] + PathPart(url[1..])
  }

  /** The file name the download route reads out of a URL: everything after
      `/download-affidavit/` in its path part, when that is one non-empty
      path segment. */
  function RouteFilename(url: string): (filename: Option<string>)
    ensures filename.Some? ==>
              && StartsWith(url, PdfUrl(filename.value))
              && filename.value != []
              && '/' !in filename.value && '?' !in filename.value && '#' !in filename.value
    ensures filename.Some? && '?' !in url && '#' !in url ==> PdfUrl(filename.value) == url
  {
    var path := PathPart(url);
    if StartsWith(path, DownloadRoute) && |path| > |DownloadRoute| && '/' !in path[|DownloadRoute|..]
    then
      assert path == DownloadRoute + path[|DownloadRoute|..];
      assert url[..|path|] == path;
      Some(path[|DownloadRoute|..])
    else None
  }

  /** The path handed back for a transaction id free of `/`, `?`, `#` and `%`
      leads the download route to the very file that was written. */
  lemma UrlRoutesToFile(transactionId: string, uuidHex: string)
    requires forall i :: 0 <= i < |transactionId| ==> transactionId[i] !in "/?#%"
    requires IsLowerHex(uuidHex)
    ensures RouteFilename(PdfUrl(Filename(transactionId, uuidHex)))
            == Some(Filename(transactionId, uuidHex))
  {
    var name := Filename(transactionId, uuidHex);
    var suffix := Take(uuidHex, SuffixLength);
    assert forall i :: 0 <= i < |suffix| ==> suffix[i] == uuidHex[i];
    assert name == FilenamePrefix + transactionId + "_" + suffix + PdfExtension;
    assert forall i :: 0 <= i < |name| ==> name[i] !in "/?#";
    RouteOfSegment(name);
  }

  /** The route reads a single segment with no query or fragment as itself. */
  lemma RouteOfSegment(segment: string)
    requires segment != []
    requires forall i :: 0 <= i < |segment| ==> segment[i] !in "/?#"
    ensures RouteFilename(DownloadRoute + segment) == Some(segment)
  {
    var url := DownloadRoute + segment;
    assert forall c :: c in "?#" ==> c !in url;
    assert url[|DownloadRoute|..] == segment;
  }

  /** A `?` in the transaction id cuts the returned path short: the route
      reads only the part before it, which names a file that was never
      written. */
  lemma QueryMarkCutsRoute(front: string, rest: string, uuidHex: string)
    requires forall i :: 0 <= i < |front| ==> front[i] !in "/?#"
    requires |uuidHex| >= SuffixLength
    ensures RouteFilename(PdfUrl(Filename(front + "?" + rest, uuidHex)))
            == Some(FilenamePrefix + front)
    ensures Filename(front + "?" + rest, uuidHex) != FilenamePrefix + front
  {
    var query := rest + "_" + Take(uuidHex, SuffixLength) + PdfExtension;
    assert PdfUrl(Filename(front + "?" + rest, uuidHex))
           == DownloadRoute + (FilenamePrefix + front) + "?" + query;
    RouteStopsAtQuery(FilenamePrefix + front, query);
  }

  /** The route reads a single segment followed by a query as that segment. */
  lemma RouteStopsAtQuery(segment: string, query: string)
    requires segment != []
    requires forall i :: 0 <= i < |segment| ==> segment[i] !in "/?#"
    ensures RouteFilename(DownloadRoute + segment + "?" + query) == Some(segment)
  {
    var path := DownloadRoute + segment;
    assert DownloadRoute + segment + "?" + query == path + "?" + query;
    assert forall c :: c in "?#" ==> c !in path;
    PathPartStopsAtQuery(path, query);
    assert path[|DownloadRoute|..] == segment;
  }

  /** The path part of `front + "?" + query` is `front`, when `front` has no
      `?` or `#` of its own. */
  lemma {:induction false} PathPartStopsAtQuery(front: string, query: string)
    requires '?' !in front && '#' !in front
    ensures PathPart(front + "?" + query) == front
    decreases |front|
  {
    if front != [] {
      assert (front + "?" + query)[1..] == front[1..] + "?" + query;
      PathPartStopsAtQuery(front[1..], query);
    }
  }

  /** The outcome of one generation request: the storage afterwards and the
      reply. */
  datatype Generation = Generation(store: Store, reply: Result<AffidavitResponse, HttpError>)

  /** `generate_affidavit` (app.py:77-96). `fileHex` is the uuid the file name
      is cut from, `hashHex` the one the security hash is cut from, and
      `generatedAt` the formatted time of rendering. */
  function GenerateAffidavit(auth: Result<string, HttpError>, store: Store,
                             request: AffidavitRequest, fileHex: string, hashHex: string,
                             generatedAt: string, build: Backend): (g: Generation)
    ensures auth.Err? ==> g == Generation(store, Err(auth.error))
    ensures g.reply.Ok? <==> auth.Ok? && build(AffidavitBlocks(request, hashHex, generatedAt)).Ok?
    ensures g.reply.Ok? ==>
              && g.reply.value.filename == Filename(request.transactionId, fileHex)
              && g.reply.value.pdfUrl == PdfUrl(g.reply.value.filename)
              && g.store.Keys == store.Keys + {g.reply.value.filename}
              && g.store[g.reply.value.filename]
                 == build(AffidavitBlocks(request, hashHex, generatedAt)).value
              && forall f :: f in store && f != g.reply.value.filename ==> g.store[f] == store[f]
    ensures auth.Ok? && g.reply.Err? ==>
              && g.store == store
              && g.reply.error == GenerationFailed(build(AffidavitBlocks(request, hashHex, generatedAt)).error)
  {
    match auth
    case Err(e) => Generation(store, Err(e))
    case Ok(_) =>
      var filename := Filename(request.transactionId, fileHex);
      match build(AffidavitBlocks(request, hashHex, generatedAt))
      case Err(message) => Generation(store, Err(GenerationFailed(message)))
      case Ok(pdf) =>
        Generation(store[filename := pdf], Ok(AffidavitResponse(PdfUrl(filename), filename)))
  }

  /** What a successful download sends back. */
  datatype FileReply = FileReply(content: seq<byte>, mediaType: string, filename: string)

  /** `download_affidavit` (app.py:98-112). */
  function DownloadAffidavit(auth: Result<string, HttpError>, store: Store, filename: string)
    : (r: Result<FileReply, HttpError>)
    ensures auth.Err? ==> r == Err(auth.error)
    ensures auth.Ok? && filename !in store ==> r == Err(NotFound)
    ensures r.Ok? <==> auth.Ok? && filename in store
    ensures r.Ok? ==> r.value == FileReply(store[filename], PdfMediaType, filename)
  {
    match auth
    case Err(e) => Err(e)
    case Ok(_) =>
      if filename !in store then Err(NotFound)
      else Ok(FileReply(store[filename], PdfMediaType, filename))
  }

  /** What is generated can be downloaded: the file name a successful
      generation returns fetches exactly the bytes the backend rendered. */
  lemma GenerateThenDownload(auth: Result<string, HttpError>, store: Store,
                             request: AffidavitRequest, fileHex: string, hashHex: string,
                             generatedAt: string, build: Backend)
    requires auth.Ok?
    requires build(AffidavitBlocks(request, hashHex, generatedAt)).Ok?
    ensures var g := GenerateAffidavit(auth, store, request, fileHex, hashHex, generatedAt, build);
            DownloadAffidavit(auth, g.store, g.reply.value.filename)
            == Ok(FileReply(build(AffidavitBlocks(request, hashHex, generatedAt)).value,
                            PdfMediaType, g.reply.value.filename))
  {
  }

  /** A later generation writing a different file name leaves an earlier
      file as it was. */
  lemma LaterGenerationKeepsFile(auth: Result<string, HttpError>, store: Store,
                                 request: AffidavitRequest, fileHex: string, hashHex: string,
                                 generatedAt: string, build: Backend, earlier: string)
    requires earlier in store
    requires earlier != Filename(request.transactionId, fileHex)
    ensures var g := GenerateAffidavit(auth, store, request, fileHex, hashHex, generatedAt, build);
            DownloadAffidavit(auth, g.store, earlier) == DownloadAffidavit(auth, store, earlier)
  {
  }

  /** Only eight hex digits of the uuid reach the file name, so a later
      generation for the same transaction whose digits agree with an earlier
      one's writes the same name and replaces the earlier file. */
  lemma SameSuffixOverwrites(auth: Result<string, HttpError>, store: Store,
                             request: AffidavitRequest, fileHex: string, hashHex: string,
                             generatedAt: string, build: Backend)
    requires auth.Ok?
    requires Filename(request.transactionId, fileHex) in store
    requires build(AffidavitBlocks(request, hashHex, generatedAt)).Ok?
    ensures var g := GenerateAffidavit(auth, store, request, fileHex, hashHex, generatedAt, build);
            var name := Filename(request.transactionId, fileHex);
            && g.reply.Ok? && g.reply.value.filename == name
            && g.store.Keys == store.Keys
            && g.store[name] == build(AffidavitBlocks(request, hashHex, generatedAt)).value
  {
  }
}

=== FILE: layout.dfy ===
/** The content of an affidavit as `create_affidavit_pdf` lays it out
    (app.py:183-327): twelve blocks in a fixed order, two of them key/value
    tables. Styles are reduced to the name of the style each block uses;
    measurements are in points, one inch being 72 points. */
module Layout {
  import opened Results
  import opened Text
  import opened Api

  /** One table row: the key in the left column, the value in the right one. */
  type Row = (string, string)

  /** The two paragraph styles the content uses (`VaultTitle`, `VaultNormal`). */
  datatype ParagraphStyle = TitleStyle | NormalStyle

  /** The two table styles: green key column, or light-green verification box. */
  datatype TableStyle = DetailStyle | VerificationStyle

  datatype Block =
    | Spacer(height: real)
    | Paragraph(text: string, style: ParagraphStyle)
    | Table(rows: seq<Row>, columnWidths: (real, real), tableStyle: TableStyle)

  const ColumnWidths: (real, real) := (2.0 * Inch, 3.5 * Inch)

  const TitleText := "TRANSACTION AFFIDAVIT"
  const IntroText :=
    "This document certifies that a transaction has been securely recorded on the "
    + "VAULT Financial platform with the following details:"
  const CertificationText :=
    "This affidavit certifies that the above transaction has been securely recorded in the VAULT "
    + "system. This document serves as an official record of the transaction."
  const VerifiedPrefix := "Digitally verified and generated on "

  const DetailKeys: seq<string> := ["Transaction ID", "Date", "Sender", "Receiver", "Amount"]
  const NotesKey := "Notes"
  const VerificationKeys: seq<string> := ["Verification Status:", "Security Hash:", "Platform:"]
  const VerifiedValue := "VERIFIED"
  const PlatformName := "VAULT Financial"

  /** The keys of a table, top to bottom. */
  function Keys(rows: seq<Row>): (ks: seq<string>)
    ensures |ks| == |rows|
    ensures forall i :: 0 <= i < |rows| ==> ks[i] == rows[i].0
  {
    seq(|rows|, i requires 0 <= i < |rows| => rows[i].0)
  }

  /** The value of the first row carrying `key`, if any: how a reader of the
      table finds an entry. */
  function Lookup(rows: seq<Row>, key: string): (v: Option<string>)
    ensures v.None? <==> key !in Keys(rows)
    ensures v.Some? ==> (key, v.value) in rows
  {
    if |rows| == 0 then None
    else if rows[0].0 == key then Some(rows[0].1)
    else
      assert Keys(rows) == [rows[0].0] + Keys(rows[1..]);
      Lookup(rows[1..], key)
  }

  /** The transaction-detail table: five fixed rows, then a `Notes` row only
      when the notes are present and non-empty. */
  function DetailRows(request: AffidavitRequest): (rows: seq<Row>)
    ensures |rows| == if HasNotes(request) then 6 else 5
    ensures forall i :: 0 <= i < 5 ==> rows[i].0 == DetailKeys[i]
    ensures HasNotes(request) ==> rows[5].0 == NotesKey
    ensures rows[0].1 == "#" + request.transactionId
    ensures rows[1].1 == request.date
    ensures rows[2].1 == request.sender
    ensures rows[3].1 == request.receiver
    ensures rows[4].1 == request.amount + " " + request.currency
    ensures HasNotes(request) ==> rows[5].1 == request.notes.value
  {
    var fixed := [
      ("Transaction ID", "#" + request.transactionId),
      ("Date", request.date),
      ("Sender", request.sender),
      ("Receiver", request.receiver),
      ("Amount", request.amount + " " + request.currency)
    ];
    if HasNotes(request) then fixed + [(NotesKey, request.notes.value)] else fixed
  }

  /** The notes only ever add a last row: the first five rows are the same
      whatever the notes are. */
  lemma NotesOnlyAppend(a: AffidavitRequest, b: AffidavitRequest)
    requires a.(notes := None) == b.(notes := None)
    ensures DetailRows(a)[..5] == DetailRows(b)[..5]
  {
  }

  /** A key that first appears in row `k` is found there. */
  lemma {:induction false} LookupFirst(rows: seq<Row>, k: nat)
    requires k < |rows|
    requires forall j :: 0 <= j < k ==> rows[j].0 != rows[k].0
    ensures Lookup(rows, rows[k].0) == Some(rows[k].1)
  {
    if k > 0 {
      LookupFirst(rows[1..], k - 1);
    }
  }

  /** No key of the detail table repeats, `Notes` included. */
  lemma DetailKeysDistinct()
    ensures forall i, j :: 0 <= i < j < |DetailKeys| ==> DetailKeys[i] != DetailKeys[j]
    ensures NotesKey !in DetailKeys
  {
  }

  /** Reading the detail table back by any of its five fixed keys gives the
      cell of that key's row; with the row contents stated by `DetailRows`
      this recovers each field of the request. */
  lemma DetailRowsLookup(request: AffidavitRequest)
    ensures forall k :: 0 <= k < 5 ==>
              Lookup(DetailRows(request), DetailKeys[k]) == Some(DetailRows(request)[k].1)
  {
    var rows := DetailRows(request);
    DetailKeysDistinct();
    forall k | 0 <= k < 5
      ensures Lookup(rows, DetailKeys[k]) == Some(rows[k].1)
    {
      LookupFirst(rows, k);
    }
  }

  /** The detail table has a `Notes` entry exactly when there are notes, and
      it then holds them unchanged. */
  lemma NotesLookup(request: AffidavitRequest)
    ensures Lookup(DetailRows(request), NotesKey)
            == if HasNotes(request) then Some(request.notes.value) else None
  {
    var rows := DetailRows(request);
    assert rows[0].0 == "Transaction ID" && rows[1].0 == "Date" && rows[2].0 == "Sender";
    assert rows[3].0 == "Receiver" && rows[4].0 == "Amount";
    if HasNotes(request) {
      assert rows[5].0 == NotesKey;
      LookupFirst(rows, 5);
    } else {
      assert NotesKey !in Keys(rows);
    }
  }

  /** The security hash: `uuid4().hex[:12].upper()` for the given hex string. */
  function SecurityHash(uuidHex: string): (h: string)
    ensures |uuidHex| >= 12 ==> |h| == 12
    ensures IsLowerHex(uuidHex) ==> IsUpperHex(h)
    ensures IsLowerHex(uuidHex) ==> Lower(h) == Take(uuidHex, 12)
  {
    var fragment := Take(uuidHex, 12);
    assert IsLowerHex(uuidHex) ==> IsLowerHex(fragment) by {
      assert forall i :: 0 <= i < |fragment| ==> fragment[i] == uuidHex[i];
    }
    if IsLowerHex(uuidHex) then UpperOfLowerHex(fragment); Upper(fragment)
    else Upper(fragment)
  }

  /** The verification table: status, hash and platform, in that order. */
  function VerificationRows(uuidHex: string): (rows: seq<Row>)
    ensures |rows| == 3
    ensures Keys(rows) == VerificationKeys
    ensures rows[0].1 == VerifiedValue
    ensures rows[1].1 == SecurityHash(uuidHex)
    ensures rows[2].1 == PlatformName
  {
    [
      ("Verification Status:", VerifiedValue),
      ("Security Hash:", SecurityHash(uuidHex)),
      ("Platform:", PlatformName)
    ]
  }

  /** For a 32-digit `uuid4().hex`, the hash cell holds exactly twelve
      upper-case hex digits, the first twelve digits of the uuid. */
  lemma VerificationHashShape(uuidHex: string)
    requires |uuidHex| == 32 && IsLowerHex(uuidHex)
    ensures var hash := VerificationRows(uuidHex)[1].1;
            |hash| == 12 && IsUpperHex(hash) && Lower(hash) == uuidHex[..12]
  {
  }

  /** The paragraph that stamps the generation time (not the transaction date). */
  function VerifiedText(generatedAt: string): (t: string)
    ensures StartsWith(t, VerifiedPrefix)
    ensures t[|VerifiedPrefix|..] == generatedAt + "."
  {
    VerifiedPrefix + generatedAt + "."
  }

  /** The whole content of one affidavit, given the request, the hex string
      the security hash is cut from and the formatted generation time. */
  function AffidavitBlocks(request: AffidavitRequest, uuidHex: string, generatedAt: string): (blocks: seq<Block>)
    ensures |blocks| == 12
    ensures forall i :: 0 <= i < 12 ==> (blocks[i].Spacer? <==> i % 2 == 0)
    ensures forall i :: 0 <= i < 12 ==> (blocks[i].Table? <==> i == 5 || i == 11)
    ensures blocks[0] == Spacer(0.25 * Inch)
    ensures blocks[1] == Paragraph(TitleText, TitleStyle)
    ensures blocks[5] == Table(DetailRows(request), ColumnWidths, DetailStyle)
    ensures blocks[9] == Paragraph(VerifiedText(generatedAt), NormalStyle)
    ensures blocks[11] == Table(VerificationRows(uuidHex), ColumnWidths, VerificationStyle)
  {
    [
      Spacer(0.25 * Inch),
      Paragraph(TitleText, TitleStyle),
      Spacer(0.25 * Inch),
      Paragraph(IntroText, NormalStyle),
      Spacer(0.25 * Inch),
      Table(DetailRows(request), ColumnWidths, DetailStyle),
      Spacer(0.4 * Inch),
      Paragraph(CertificationText, NormalStyle),
      Spacer(0.2 * Inch),
      Paragraph(VerifiedText(generatedAt), NormalStyle),
      Spacer(0.3 * Inch),
      Table(VerificationRows(uuidHex), ColumnWidths, VerificationStyle)
    ]
  }

  /** The layout is fixed: two affidavits differ only in the detail table
      (which depends on the request alone), the verification sentence (on the
      generation time alone) and the verification table (on the hex alone). */
  lemma OnlyInjectedBlocksVary(r1: AffidavitRequest, h1: string, g1: string,
                               r2: AffidavitRequest, h2: string, g2: string)
    ensures forall i :: 0 <= i < 12 && i != 5 && i != 9 && i != 11 ==>
              AffidavitBlocks(r1, h1, g1)[i] == AffidavitBlocks(r2, h2, g2)[i]
    ensures r1 == r2 ==> AffidavitBlocks(r1, h1, g1)[5] == AffidavitBlocks(r2, h2, g2)[5]
    ensures g1 == g2 ==> AffidavitBlocks(r1, h1, g1)[9] == AffidavitBlocks(r2, h2, g2)[9]
    ensures h1 == h2 ==> AffidavitBlocks(r1, h1, g1)[11] == AffidavitBlocks(r2, h2, g2)[11]
  {
  }

  /** The detail table of an affidavit has five rows, or six with `Notes` last. */
  lemma DetailTableRowCount(request: AffidavitRequest, uuidHex: string, generatedAt: string)
    ensures var rows := AffidavitBlocks(request, uuidHex, generatedAt)[5].rows;
            && (HasNotes(request) ==> |rows| == 6 && rows[5] == (NotesKey, request.notes.value))
            && (!HasNotes(request) ==> |rows| == 5)
  {
  }
}

=== FILE: results.dfy ===
/** Failure-carrying values shared by every module of the model.
    `Option` stands for Python's `Optional[...]`; `Result` stands for a call
    that either returns a value or raises. */
module Results {

  datatype Option<T> = None | Some(value: T)

  datatype Result<T, E> = Ok(value: T) | Err(error: E)
}

=== FILE: service.dfy ===
/** The service as a caller sees it: each endpoint behind the bearer-header
    check, with the configured key as a parameter. `Generate` and `Download`
    use the prefix-stripping check `Auth.VerifyApiKey`; `GenerateAsWritten`
    and `DownloadAsWritten` use the check as app.py writes it,
    `Auth.VerifyApiKeyAsWritten`. */
module Service {
  import opened Results
  import opened Text
  import opened Api
  import opened Layout
  import opened Auth
  import opened Endpoints

  function Generate(authorization: string, apiKey: string, store: Store,
                    request: AffidavitRequest, fileHex: string, hashHex: string,
                    generatedAt: string, build: Backend): (g: Generation)
    ensures authorization != BearerPrefix + apiKey ==>
              g.store == store && g.reply.Err? && g.reply.error.status == 401
    ensures g.reply.Ok? ==> authorization == BearerPrefix + apiKey
    ensures authorization == BearerPrefix + apiKey ==>
              && (g.reply.Ok? <==> build(AffidavitBlocks(request, hashHex, generatedAt)).Ok?)
              && (g.reply.Ok? ==>
                    && g.reply.value.filename == Filename(request.transactionId, fileHex)
                    && g.store == store[g.reply.value.filename :=
                                        build(AffidavitBlocks(request, hashHex, generatedAt)).value])
              && (g.reply.Err? ==>
                    && g.store == store
                    && g.reply.error
                       == GenerationFailed(build(AffidavitBlocks(request, hashHex, generatedAt)).error))
  {
    GenerateAffidavit(VerifyApiKey(authorization, apiKey), store, request,
                      fileHex, hashHex, generatedAt, build)
  }

  function Download(authorization: string, apiKey: string, store: Store, filename: string)
    : (r: Result<FileReply, HttpError>)
    ensures authorization != BearerPrefix + apiKey ==> r.Err? && r.error.status == 401
    ensures authorization == BearerPrefix + apiKey ==>
              (r.Ok? <==> filename in store) && (r.Err? ==> r.error == NotFound)
    ensures r.Ok? ==> r.value.content == store[filename]
  {
    DownloadAffidavit(VerifyApiKey(authorization, apiKey), store, filename)
  }

  /** A wrong credential never reaches the backend or the storage:
      the outcome is the same whatever the backend would have done. */
  lemma UnauthorizedNeverRenders(authorization: string, apiKey: string, store: Store,
                                 request: AffidavitRequest, fileHex: string, hashHex: string,
                                 generatedAt: string, build1: Backend, build2: Backend)
    requires authorization != BearerPrefix + apiKey
    ensures Generate(authorization, apiKey, store, request, fileHex, hashHex, generatedAt, build1)
            == Generate(authorization, apiKey, store, request, fileHex, hashHex, generatedAt, build2)
  {
  }

  /** Example: Alice pays Bob 100.5 USD in transaction TX123 with
      the right key. The file is `VAULT_Affidavit_TX123_<8 hex digits>.pdf`,
      and downloading it returns the rendered bytes unchanged. */
  lemma AliceToBob(apiKey: string, store: Store, fileHex: string, hashHex: string,
                   generatedAt: string, build: Backend)
    requires |fileHex| == 32 && IsLowerHex(fileHex)
    requires build(AffidavitBlocks(AffidavitRequest("Alice", "Bob", "100.5", "USD",
                   "January 15, 2024 at 10:30:00 UTC", "TX123", None), hashHex, generatedAt)).Ok?
    ensures var request := AffidavitRequest("Alice", "Bob", "100.5", "USD",
                             "January 15, 2024 at 10:30:00 UTC", "TX123", None);
            var header := BearerPrefix + apiKey;
            var g := Generate(header, apiKey, store, request, fileHex, hashHex, generatedAt, build);
            && g.reply.Ok?
            && g.reply.value.filename == "VAULT_Affidavit_TX123_" + fileHex[..8] + ".pdf"
            && IsLowerHex(fileHex[..8])
            && g.reply.value.pdfUrl == "/download-affidavit/" + g.reply.value.filename
            && Download(header, apiKey, g.store, g.reply.value.filename)
               == Ok(FileReply(build(AffidavitBlocks(request, hashHex, generatedAt)).value,
                               "application/pdf", g.reply.value.filename))
  {
    var request := AffidavitRequest("Alice", "Bob", "100.5", "USD",
                     "January 15, 2024 at 10:30:00 UTC", "TX123", None);
    GenerateThenDownload(Ok(apiKey), store, request, fileHex, hashHex, generatedAt, build);
  }

  /** Generation behind the check as written. */
  function GenerateAsWritten(authorization: string, apiKey: string, store: Store,
                             request: AffidavitRequest, fileHex: string, hashHex: string,
                             generatedAt: string, build: Backend): (g: Generation)
    ensures !(StartsWith(authorization, BearerPrefix)
              && RemoveAll(authorization, BearerPrefix) == apiKey) ==>
              g.store == store && g.reply.Err? && g.reply.error.status == 401
    ensures g.reply.Ok? ==>
              StartsWith(authorization, BearerPrefix) && RemoveAll(authorization, BearerPrefix) == apiKey
    ensures (StartsWith(authorization, BearerPrefix)
             && RemoveAll(authorization, BearerPrefix) == apiKey) ==>
              && (g.reply.Ok? <==> build(AffidavitBlocks(request, hashHex, generatedAt)).Ok?)
              && (g.reply.Ok? ==>
                    && g.reply.value.filename == Filename(request.transactionId, fileHex)
                    && g.store == store[g.reply.value.filename :=
                                        build(AffidavitBlocks(request, hashHex, generatedAt)).value])
              && (g.reply.Err? ==>
                    && g.store == store
                    && g.reply.error
                       == GenerationFailed(build(AffidavitBlocks(request, hashHex, generatedAt)).error))
  {
    GenerateAffidavit(VerifyApiKeyAsWritten(authorization, apiKey), store, request,
                      fileHex, hashHex, generatedAt, build)
  }

  /** Download behind the check as written. */
  function DownloadAsWritten(authorization: string, apiKey: string, store: Store, filename: string)
    : (r: Result<FileReply, HttpError>)
    ensures !(StartsWith(authorization, BearerPrefix)
              && RemoveAll(authorization, BearerPrefix) == apiKey) ==>
              r.Err? && r.error.status == 401
    ensures StartsWith(authorization, BearerPrefix) && RemoveAll(authorization, BearerPrefix) == apiKey ==>
              (r.Ok? <==> filename in store) && (r.Err? ==> r.error == NotFound)
    ensures r.Ok? ==> r.value.content == store[filename]
  {
    DownloadAffidavit(VerifyApiKeyAsWritten(authorization, apiKey), store, filename)
  }

  /** With the check as written, the header "Bearer Bearer k" renders and
      stores an affidavit under the key "k", and fetches it back; the
      corrected composition refuses both and leaves storage alone. */
  lemma DoubledPrefixReachesStorage(store: Store, request: AffidavitRequest, fileHex: string,
                                    hashHex: string, generatedAt: string, build: Backend)
    requires build(AffidavitBlocks(request, hashHex, generatedAt)).Ok?
    ensures var g := GenerateAsWritten("Bearer Bearer k", "k", store, request,
                                       fileHex, hashHex, generatedAt, build);
            && g.reply.Ok?
            && g.reply.value.filename in g.store
            && DownloadAsWritten("Bearer Bearer k", "k", g.store, g.reply.value.filename).Ok?
    ensures var g := Generate("Bearer Bearer k", "k", store, request,
                              fileHex, hashHex, generatedAt, build);
            g.store == store && g.reply == Err(InvalidKey)
  {
    DoubledPrefixAsWritten();
    DoubledPrefixRejected();
  }
}

=== FILE: text.dfy ===
/** The few Python string operations the service relies on, with the meaning
    Python gives them: `startswith`, `replace(p, "")`, slicing `s[:n]` and
    `upper()` on ASCII text, plus the helpers needed to state what they do. */
module Text {

  /** `s.startswith(p)` */
  predicate StartsWith(s: string, p: string) {
    |p| <= |s| && s[..|p|] == p
  }

  /** `s` starts with `p` exactly when it is `p` followed by the rest of `s`;
      in particular `p + t` always starts with `p`. */
  lemma StartsWithSplits(s: string, p: string, t: string)
    ensures StartsWith(s, p) <==> |p| <= |s| && s == p + s[|p|..]
    ensures StartsWith(p + t, p)
  {
    assert (p + t)[..|p|] == p;
  }

  /** `s.endswith(p)` */
  predicate EndsWith(s: string, p: string) {
    |p| <= |s| && s[|s| - |p|..] == p
  }

  /** `p` occurs in `s` at index `i`. */
  predicate OccursAt(s: string, p: string, i: int) {
    0 <= i && i + |p| <= |s| && s[i..i + |p|] == p
  }

  /** `p` occurs somewhere in `s`; a helper for stating properties, not an
      operation the service performs. */
  predicate Contains(s: string, p: string) {
    exists i :: 0 <= i <= |s| && OccursAt(s, p, i)
  }

  /** `n` copies of `p` side by side. */
  function Repeat(p: string, n: nat): (r: string)
    ensures |r| == n * |p|
  {
    if n == 0 then [] else p + Repeat(p, n - 1)
  }

  /** `s.replace(p, "")` for a non-empty `p`: the string is scanned from the
      left and each non-overlapping occurrence of `p` found is dropped. */
  function RemoveAll(s: string, p: string): (r: string)
    requires p != []
    ensures |r| <= |s|
    decreases |s|
  {
    if |s| < |p| then s
    else if s[..|p|] == p then RemoveAll(s[|p|..], p)
    else [s[0]] + RemoveAll(s[1..], p)
  }

  /** A string without any occurrence of `p` is left alone by the removal. */
  lemma {:induction false} RemoveAllAbsent(s: string, p: string)
    requires p != []
    requires !Contains(s, p)
    ensures RemoveAll(s, p) == s
    decreases |s|
  {
    if |s| < |p| {
    } else {
      assert !OccursAt(s, p, 0);
      assert !Contains(s[1..], p) by {
        forall i | OccursAt(s[1..], p, i)
          ensures false
        {
          assert s[1..][i..i + |p|] == s[i + 1..i + 1 + |p|];
          assert OccursAt(s, p, i + 1);
        }
      }
      RemoveAllAbsent(s[1..], p);
      assert s == [s[0]] + s[1..];
    }
  }

  /** A string that does contain `p` always loses something to the removal. */
  lemma {:induction false} RemoveAllShrinks(s: string, p: string)
    requires p != []
    requires Contains(s, p)
    ensures |RemoveAll(s, p)| < |s|
    decreases |s|
  {
    var i :| 0 <= i <= |s| && OccursAt(s, p, i);
    assert 0 <= i && i + |p| <= |s|;
    if s[..|p|] == p {
    } else {
      assert i != 0;
      assert 1 <= i;
      assert s[1..][i - 1..i - 1 + |p|] == s[i..i + |p|];
      assert OccursAt(s[1..], p, i - 1);
      RemoveAllShrinks(s[1..], p);
    }
  }

  /** The removal leaves a string unchanged exactly when `p` does not occur in it. */
  lemma RemoveAllFixedPoint(s: string, p: string)
    requires p != []
    ensures RemoveAll(s, p) == s <==> !Contains(s, p)
  {
    if Contains(s, p) {
      RemoveAllShrinks(s, p);
    } else {
      RemoveAllAbsent(s, p);
    }
  }

  /** Any number of leading copies of `p` vanish without trace. */
  lemma {:induction false} RemoveAllLeadingCopies(s: string, p: string, n: nat)
    requires p != []
    ensures RemoveAll(Repeat(p, n) + s, p) == RemoveAll(s, p)
  {
    if n == 0 {
      assert Repeat(p, n) + s == s;
    } else {
      var t := Repeat(p, n) + s;
      assert t == p + (Repeat(p, n - 1) + s);
      assert |t| >= |p|;
      assert t[..|p|] == p;
      assert t[|p|..] == Repeat(p, n - 1) + s;
      assert RemoveAll(t, p) == RemoveAll(t[|p|..], p);
      RemoveAllLeadingCopies(s, p, n - 1);
    }
  }

  /** Everything before the first occurrence of `p` is kept, that occurrence
      is dropped, and the removal carries on after it. */
  lemma {:induction false} RemoveAllFirstOccurrence(a: string, b: string, p: string)
    requires p != []
    requires forall i :: 0 <= i < |a| ==> !OccursAt(a + p + b, p, i)
    ensures RemoveAll(a + p + b, p) == a + RemoveAll(b, p)
    decreases |a|
  {
    var s := a + p + b;
    assert |s| >= |p|;
    if a == [] {
      assert s[..|p|] == p by {
        assert s == p + b;
      }
      assert s[|p|..] == b;
    } else {
      assert s[..|p|] != p by {
        assert !OccursAt(s, p, 0);
        assert s[0..|p|] == s[..|p|];
      }
      assert RemoveAll(s, p) == [s[0]] + RemoveAll(s[1..], p);
      assert s[1..] == a[1..] + p + b;
      forall i | 0 <= i < |a[1..]|
        ensures !OccursAt(a[1..] + p + b, p, i)
      {
        assert !OccursAt(s, p, i + 1);
        assert s[i + 1..i + 1 + |p|] == s[1..][i..i + |p|];
      }
      RemoveAllFirstOccurrence(a[1..], b, p);
      assert a == [a[0]] + a[1..];
      assert s[0] == a[0];
    }
  }

  /** `s[:n]`: the first `n` characters, or all of `s` when it is shorter. */
  function Take(s: string, n: nat): (r: string)
    ensures |r| == if |s| < n then |s| else n
    ensures StartsWith(s, r)
  {
    if |s| <= n then s else s[..n]
  }

  predicate IsLowerHexDigit(c: char) {
    '0' <= c <= '9' || 'a' <= c <= 'f'
  }

  predicate IsUpperHexDigit(c: char) {
    '0' <= c <= '9' || 'A' <= c <= 'F'
  }

  /** Every character is one of `0-9a-f`, as in `uuid.uuid4().hex`. */
  predicate IsLowerHex(s: string) {
    forall i :: 0 <= i < |s| ==> IsLowerHexDigit(s[i])
  }

  /** Every character is one of `0-9A-F`. */
  predicate IsUpperHex(s: string) {
    forall i :: 0 <= i < |s| ==> IsUpperHexDigit(s[i])
  }

  /** `c.upper()` on ASCII letters; every other character is kept. */
  function UpperChar(c: char): char {
    if 'a' <= c <= 'z' then (c as int - 32) as char else c
  }

  /** `c.lower()` on ASCII letters; every other character is kept. */
  function LowerChar(c: char): char {
    if 'A' <= c <= 'Z' then (c as int + 32) as char else c
  }

  /** `s.upper()` on ASCII text. */
  function Upper(s: string): (r: string)
    ensures |r| == |s|
    ensures forall i :: 0 <= i < |s| && 'a' <= s[i] <= 'z' ==>
              'A' <= r[i] <= 'Z' && r[i] as int == s[i] as int - 32
    ensures forall i :: 0 <= i < |s| && !('a' <= s[i] <= 'z') ==> r[i] == s[i]
  {
    seq(|s|, i requires 0 <= i < |s| => UpperChar(s[i]))
  }

  /** `s.lower()` on ASCII text. */
  function Lower(s: string): (r: string)
    ensures |r| == |s|
  {
    seq(|s|, i requires 0 <= i < |s| => LowerChar(s[i]))
  }

  /** Upper-casing lower-case hex gives upper-case hex and loses nothing:
      lower-casing it again restores the original. */
  lemma UpperOfLowerHex(s: string)
    requires IsLowerHex(s)
    ensures IsUpperHex(Upper(s))
    ensures Lower(Upper(s)) == s
  {
    assert forall i :: 0 <= i < |s| ==> Lower(Upper(s))[i] == s[i];
  }
}
